=== FILE: README.md ===
# gist-to-repo synchroniser, modelled in Dafny

The synchroniser copies the files of a GitHub Gist into a repository as one
step of a CI workflow. It reads its options from the environment, then runs
these steps in order:

1. Remove any stale clone directory (`gist-clone-temp/<gist id>`) and clone the gist.
2. List the gist's files, dropping `.git`.
3. Build a dictionary from gist file name to repository-relative destination,
   under one of four mapping strategies (`explicit`, `same_names`, `prefix`,
   `all_to_directory`).
4. Copy each file unless the merge strategy (`overwrite`, `skip_existing`,
   `newer_only`) declines.
5. Commit and push the copied files, or, with `create_pr`, give up with
   "not implemented".

The clone directory is removed however the run ends.

The model covers the decision logic of the `GistToRepoSync` class in
`main.py`:

- `Types` holds the vocabulary:
  - the run configuration, as an immutable record (`DefaultConfig` gives the defaults of the constructor);
  - the errors a run raises;
  - `Join`, which models `os.path.join` for a relative second part;
  - `PathExists`, which models `os.path.exists` over a filesystem given by the paths created in it (a directory exists when something lies below it).
- `Listing` models `get_gist_files`: a scanning loop that removes the first `.git`, proved against `RemoveFirst` (Python's `list.remove`).
- `FileMapping` models `build_file_map`:
  - a method with one loop per strategy, proved against the spec function `FileMapSpec`;
  - an insertion-ordered dictionary (`FileMap`: keys in insertion order plus a lookup map), as a Python dict iterates.
- `MergePolicy` models `should_copy_file` as a pure decision table.
- `Sync` models `sync_files`:
  - a loop over the dictionary in iteration order, proved against the spec function `SyncSpec`;
  - the filesystem is the set of existing paths, and a copy adds its target to it.
- `Partition` splits a sequence by parallel yes/no decisions. It is the reference for the modified/skipped split.
- `Syncer` models `run`:
  - `Control` is the control flow of the try block: its early returns, the `create_pr` branch, and `commit_changes`;
  - `Expected` feeds the steps' results through `Control`, and `AfterClone` is its part after the clone;
  - the method `Attempt` is the try block, proved equal to `Expected`; it prepares and clones, then hands over to `AttemptAfterClone` (steps 2 to 5), proved equal to `AfterClone`;
  - the method `Run` adds the `finally` cleanup.
- `Scenarios` holds whole runs on small concrete inputs.

Outside influences enter as parameters:

- the clone's outcome and directory listing (`CloneResult`);
- git's answers in `commit_changes` (`GitAnswers`): whether opening the repository, writing the identity, staging and `is_dirty` succeed; whether the repository is dirty after staging; whether the commit and the push succeed;
- the set of files that exist when the run starts.

## Model

| member | source | states |
|---|---|---|
| Types.Join | main.py:68 | the joined path starts with the directory and ends with the name; exactly one `/` separator is added, at the directory's end, unless the directory is empty or already ends in `/` |
| Types.PathExists | main.py:107 | `os.path.exists`: a path that is a file exists; a path that exists is a prefix of some file; nothing exists in an empty filesystem |
| Types.JoinInjective | main.py:68 | two names joined under the same directory give the same path only if the names are equal |
| Listing.RemoveFirst | main.py:45-46 | without `.git` in the listing the listing is returned unchanged; with it, the result is one entry shorter |
| Listing.RemoveFirstMultiset | main.py:45-46 | removal takes out exactly one copy of `.git` and keeps every other entry (multiset difference) |
| Listing.Without | main.py:44-46 | the reference filter: its result never contains `.git` |
| Listing.WithoutKeeps | main.py:44-46 | every entry other than `.git` is kept by the filter, and nothing new appears |
| Listing.RemoveFirstOfDistinct | main.py:44-46 | for a listing without repeated names (a directory listing), `get_gist_files` equals the filter: every other entry kept, in order |
| Listing.RemoveFirstAt | main.py:45-46 | cutting out the first occurrence found by a scan is `list.remove` |
| Listing.GetGistFiles | main.py:42-48 | the returned listing is the input with its first `.git` entry removed, every other entry kept in order |
| FileMapping.FileMap.Put | main.py:61 | dict assignment: the lookup gains or overwrites the key, the keys already present stay in front in their order, and a well-formed dict stays well formed |
| FileMapping.Destination | main.py:57-87 | a gist file gets a destination only under a known strategy, and under a known strategy it lacks one only under explicit, for a file missing from the table |
| FileMapping.PrefixRename | main.py:74-79 | a name starting with a non-empty prefix loses it; any other name gets the prefix in front; an empty prefix changes nothing |
| FileMapping.FileMapSpec | main.py:55-87 | the dict built for any strategy is well formed and its keys are all gist files |
| FileMapping.FileMapSpecNext | main.py:59-61 | one more gist file adds its destination when it has one, and changes nothing otherwise |
| FileMapping.FileMapSpecEntries | main.py:57-87 | a gist file is a key exactly when its strategy gives it a destination, and its value is that destination |
| FileMapping.FileMapSpecOrder | main.py:59-87 | for a listing without repeats, the dict iterates over the mapped files in listing order |
| FileMapping.SameNamesMapping | main.py:65-87 | same_names and all_to_directory (the identical loops at lines 65-69 and 83-87): every gist file is a key, and goes to `Join(target_path, file)` |
| FileMapping.PrefixMapping | main.py:71-81 | prefix: every gist file is a key; with prefix P, a file starting with P goes to `Join(target_path, F[len(P):])`, others to `Join(target_path, P + F)`, and an empty prefix leaves names unchanged |
| FileMapping.SameNamesDistinctDestinations | main.py:65-87 | under same_names and all_to_directory, distinct gist files get distinct destinations |
| FileMapping.ExplicitMapping | main.py:57-63 | explicit: the keys are exactly the gist files in the table, each mapped to the table's value unjoined; other files are dropped |
| FileMapping.PrefixRenameRoundTrip | main.py:74-79 | adding the prefix and then renaming again gives the name back |
| FileMapping.PrefixRenameStripNotInvertible | main.py:74-79 | stripping is not undone by renaming again: "snip_snip_a" becomes "snip_a" and then "a" |
| FileMapping.BuildFileMap | main.py:50-96 | an unknown strategy fails with UnknownMappingStrategy carrying the strategy; a known one returns the dict of `FileMapSpec` |
| MergePolicy.ShouldCopy | main.py:98-118 | copy is declined exactly under skip_existing for a target that exists, as a file or as a directory; overwrite, newer_only and unknown strategies always copy |
| Partition.PickLengths | main.py:125-145 | the two halves of a split hold as many entries as the whole |
| Partition.PickSplits | main.py:125-145 | the two halves of a split are together the whole (multiset equality) |
| Sync.Target | main.py:130 | the on-disk target starts with the repository root and ends with the repository-relative destination |
| Sync.Step | main.py:128-144 | one iteration appends its destination `rel` to modified exactly when the merge policy says copy, and to skipped otherwise, leaving the other list as it was; what existed is kept, at most the target is added, and the target exists afterwards |
| Sync.StepExists | main.py:133-139 | after one iteration a path exists exactly when it existed before or the iteration's target lies at or below it |
| Sync.SyncSpec | main.py:125-145 | after the loop the two lists hold one entry per map entry between them, and nothing that existed has gone |
| Sync.CopiedAt | main.py:137-141 | the i-th copy decision asks the merge policy about the i-th target, given the files that exist after the earlier entries |
| Sync.SyncPartition | main.py:125-145 | modified holds the destinations that were copied and skipped the others, each in map order |
| Sync.SyncSplits | main.py:125-145 | modified and skipped together are the map's values, counted with repetition: every destination lands in exactly one list |
| Sync.SyncExisting | main.py:139-141 | afterwards the files that exist are those before plus the target of every modified destination |
| Sync.OverwriteStep | main.py:137-141 | under any strategy other than skip_existing, each iteration copies |
| Sync.SyncOverwrite | main.py:125-145 | under every strategy other than skip_existing, modified is every map value in order and skipped is empty |
| Sync.SkipExistingExists | main.py:125-145 | under skip_existing a path exists after the sync exactly when it existed before or some entry's target lies at or below it: every target exists afterwards, copied or not |
| Sync.SkipExistingDecision | main.py:125-145 | under skip_existing an entry is copied exactly when nothing existed at or below its target before and no earlier entry's target lies at or below it |
| Sync.SkipExistingNeverOverwrites | main.py:106-109 | under skip_existing no target at or below which something existed before the sync is written, and nothing that existed disappears |
| Sync.SyncFiles | main.py:120-147 | the sync loop ends in the state of `SyncSpec`; modified and skipped together have one entry per map entry; other strategies copy every value; every modified target exists afterwards |
| Syncer.CloneDir | main.py:24 | the clone directory is `gist-clone-temp/` followed by the gist id, or `gist-clone-temp` itself when the gist id is empty (Python treats the trailing `/` as the same directory) |
| Syncer.Prepare | main.py:27-31 | after prepare_gist_clone_dir nothing is left at or below the clone directory except `gist-clone-temp` itself; for a non-empty gist id the clone directory is absent; `gist-clone-temp` exists, nothing else new appears, and everything outside the clone directory is kept (for an empty gist id, gist-clone-temp is removed with its contents and made again) |
| Syncer.AddClone | main.py:33-40 | a successful clone keeps what existed and creates the clone directory with every listed entry in it |
| Syncer.CloneInsideRoot | main.py:33-40 | the clone creates nothing outside `gist-clone-temp` |
| Syncer.CloneRootAfterAttempt | main.py:27-31 | `gist-clone-temp` exists at the end of the try block, whatever happened after it was made |
| Syncer.Control | main.py:201-235 | every run starts by preparing; the clone step is recorded exactly when the clone succeeded, and the run raises the clone failure exactly when it did not; the try block never records the cleanup |
| Syncer.RemoveTree | main.py:29-30 | after `rmtree` nothing at or below the directory exists; everything else is kept |
| Syncer.EarlyExits | main.py:209-229 | the run stops with NoFiles exactly when the clone succeeded with no files, and with NoMappings exactly when the map came out empty for a known strategy; it stops with NoneModified exactly when a non-empty map copied nothing; NoFiles and NoMappings never sync; none of the three commits or opens a pull request |
| Syncer.PullRequestNeverCommits | main.py:227-229 | with create_pr the run never commits or pushes, and once files were modified it raises create_pull_request's NotImplementedError |
| Syncer.CommitOnlyAfterSync | main.py:149-182 | a commit happens only without create_pr, after a sync that modified files, with those files staged, staging and the commit succeeding and git reporting changes; the push happens exactly when the run ends successfully with Synchronised |
| Syncer.CommitOutcomes | main.py:149-182 | once a sync modified files the run raises NotImplemented exactly under create_pr; otherwise it ends with NoChanges exactly when staging succeeds and git reports no changes (nothing is committed), and with Synchronised exactly when staging succeeds, git reports changes and the commit and push succeed |
| Syncer.GitFailures | main.py:149-182 | the run raises GitFailed, CommitFailed or PushFailed exactly when it reaches opening/staging, the commit or the push and that call fails; the first two leave no commit, a failed push leaves the commit unpushed |
| Syncer.CloneDirAfterAttempt | main.py:27-40 | at the end of the try block the clone directory exists exactly when the clone succeeded or the gist id is empty |
| Syncer.Attempt | main.py:201-235 | the try block produces the outcome, the step trace and the filesystem of `Expected` |
| Syncer.AttemptAfterClone | main.py:206-235 | steps 2 to 5 produce the outcome, the step trace and the filesystem of `AfterClone` |
| Syncer.Run | main.py:191-245 | the run's outcome is the try block's; its trace is the try block's followed by the cleanup exactly when a clone was made or the gist id is empty; the filesystem is the try block's with the clone directory removed when one was made or the gist id is empty; no clone directory is left, and `gist-clone-temp` remains exactly when the gist id is non-empty |
| Scenarios.DefaultRun | main.py:13-25 | with the constructor's defaults, every gist file is a key going to `./` plus its name, everything is copied in map order, and create_pr is off |
| Scenarios.SameNamesMap | main.py:65-69 | with same_names into "out/", listing a.txt, b.txt maps to out/a.txt, out/b.txt in that order |
| Scenarios.SameNamesRun | main.py:201-235 | a whole run over a gist listing a.txt and b.txt, with changes and an accepted push, stages out/a.txt and out/b.txt, commits, pushes and ends Synchronised |
| Scenarios.PrefixRun | main.py:71-81 | with prefix "snip_", snip_util.py goes to ./util.py and other.py to ./snip_other.py |
| Scenarios.SkipExistingRun | main.py:125-145 | under skip_existing with ./out/a.txt present and otherwise only paths in `gist-clone-temp`, out/a.txt is skipped and out/b.txt modified |
| Scenarios.SkipExistingWholeRun | main.py:201-235 | a whole skip_existing run with ./out/a.txt present stages only out/b.txt, commits, pushes and ends Synchronised |
| Scenarios.SharedDestinationRun | main.py:125-145 | under skip_existing two entries with one new destination put that path in both lists |
| Scenarios.EmptyGistRun | main.py:209-211 | a gist holding only `.git` stops with NoFiles before any commit, leaving the clone directory for the cleanup |

## Left out

- Environment reading and JSON decoding in the constructor (main.py:10-25). The configuration is an immutable record; the gist URL with its token is not modelled.
- The git library:
  - clone, `config_writer`, `index.add`, `is_dirty`, commit and push are steps in the trace;
  - their outcomes are parameters: the clone's listing, and the `GitAnswers` record for staging, `is_dirty`, the commit and the push;
  - a failure in `git.Repo`, `config_writer`, `index.add` or `is_dirty` (main.py:151-162) is one outcome, GitFailed, recorded before the identity and staging steps whichever of the four calls raised;
  - a failure of the remote lookup (main.py:178) is folded into PushFailed, after the commit.
- Commit-message formatting with `str.format` and the `GITHUB_ACTOR`/`GITHUB_REF` lookups (main.py:167-171). No property depends on the message.
- `print` output, and the reason strings beyond the copy decision they accompany (the strings are kept in `MergePolicy.Decision`).
- Filesystem details:
  - `os.makedirs` at main.py:31 creates `gist-clone-temp`, which the model records (`Syncer.Prepare`) and which the cleanup removes only when the gist id is empty;
  - `os.makedirs` at main.py:133 creates the parents of a target; the model implies a directory from any path below it, and every target exists after its iteration (`Sync.Step`), so these parents are implied rather than recorded;
  - the `FileExistsError` `os.makedirs` raises when a parent is an existing file is not modelled;
  - `shutil.copy2` copies file contents and metadata; the model records only that the target exists afterwards;
  - copy, permission and disk errors are not modelled.
- Sync.SyncFiles: decides existence on the joined path string without normalisation, so `./out/a` and `out/a` are different paths here although they name one file.
- Sync.SyncFiles: when a target is an existing directory and the strategy copies, `shutil.copy2` writes a file inside that directory; the model records the target path itself as existing.
- Syncer.Prepare: takes the parent of the clone directory to be `gist-clone-temp`, which is `os.path.dirname` of it only when the gist id holds no `/`.
- Types.Join: does not model `os.path.join`'s rule that an absolute second part discards the first (an explicit mapping to an absolute path), nor path normalisation.
- The `newer_only` timestamp comparison: the source does not implement it and overwrites instead, as the model does.
- Idempotence of two successive runs (no second commit): it rests on git's `is_dirty`, which is a parameter here.
- `os.listdir` (main.py:44): the listing is a parameter, in whatever order the filesystem returns it.
- Concurrency between runs sharing the clone directory: a run is sequential.

## Consequences of the code worth knowing

- Under skip_existing, two gist files mapped to the same new destination leave that path in both the modified and the skipped list: main.py:137-144 checks the target after the earlier copy (`Scenarios.SharedDestinationRun`).
- A destination that did not exist before the sync can still be skipped, because main.py:107 tests existence when the entry is reached (`Sync.SkipExistingDecision`).
- Under skip_existing a destination is also skipped when an earlier entry's target lies below it, since that copy made it a directory and main.py:107 tests `os.path.exists`.
- With a non-empty gist id every run leaves `gist-clone-temp` behind, with whatever else it held, even a run whose clone failed: main.py:31 creates it and the cleanup at main.py:243-244 removes only `gist-clone-temp/<gist id>` (`Syncer.Run`).
- With an empty gist id the clone directory is `gist-clone-temp` itself: preparation removes it with all its contents (main.py:29-30) and the cleanup removes it again, so no `gist-clone-temp` remains (`Syncer.Run`).
- Prefix destinations are joined with the target directory (main.py:80), so with the default `./` the renamed `util.py` lands at `./util.py`.

=== FILE: file_mapping.dfy ===
/** build_file_map: from the gist's file names to repository-relative
    destinations, under one of four mapping strategies. */
module FileMapping {
  import opened Types
  import opened Listing

  /** An insertion-ordered dictionary from gist file name to destination,
      as a Python dict: `keys` in insertion order, `dest` the lookup. */
  datatype FileMap = FileMap(keys: seq<Name>, dest: map<Name, Path>) {

    ghost predicate Valid() {
      Distinct(keys) && forall k :: k in dest <==> k in keys
    }

    /** `file_map[k] = p`: a new key goes last, an existing key keeps its place. */
    function Put(k: Name, p: Path): (r: FileMap)
      ensures r.dest == dest[k := p]
      ensures keys <= r.keys
      ensures Valid() ==> r.Valid()
    {
      if k in dest then FileMap(keys, dest[k := p]) else FileMap(keys + [k], dest[k := p])
    }

    /** The destinations in the dict's iteration order. */
    function Values(): seq<Path>
      requires forall k :: k in keys ==> k in dest
    {
      seq(|keys|, i requires 0 <= i < |keys| => dest[keys[i]])
    }
  }

  const EmptyMap: FileMap := FileMap([], map[])

  /** The prefix strategy's renaming: a name that starts with a non-empty
      prefix loses it; any other name gets the prefix put in front. */
  function PrefixRename(prefix: string, name: Name): (r: Name)
    ensures prefix == [] ==> r == name
    ensures prefix != [] && prefix <= name ==> prefix + r == name
    ensures !(prefix <= name) ==> r == prefix + name
  {
    if prefix != [] && prefix <= name then name[|prefix|..] else prefix + name
  }

  /** Where one gist file goes under a known strategy; None when the explicit
      table has no entry for it. */
  function Destination(cfg: Config, name: Name): (r: Option<Path>)
    ensures r.Some? ==> KnownMappingStrategy(cfg.mappingStrategy)
    ensures r.None? && KnownMappingStrategy(cfg.mappingStrategy) ==>
              cfg.mappingStrategy == EXPLICIT && name !in cfg.fileMappings
  {
    if cfg.mappingStrategy == EXPLICIT then
      if name in cfg.fileMappings then Some(cfg.fileMappings[name]) else None
    else if cfg.mappingStrategy == SAME_NAMES then Some(Join(cfg.targetPath, name))
    else if cfg.mappingStrategy == PREFIX then Some(Join(cfg.targetPath, PrefixRename(cfg.filePrefix, name)))
    else if cfg.mappingStrategy == ALL_TO_DIRECTORY then Some(Join(cfg.targetPath, name))
    else None
  }

  /** The dict build_file_map fills, one gist file at a time. */
  function FileMapSpec(cfg: Config, files: seq<Name>): (m: FileMap)
    ensures m.Valid()
    ensures forall k :: k in m.dest ==> k in files
  {
    if files == [] then EmptyMap
    else
      var m := FileMapSpec(cfg, files[..|files| - 1]);
      var f := files[|files| - 1];
      match Destination(cfg, f)
      case Some(p) => m.Put(f, p)
      case None => m
  }

  /** One more gist file: the dict gains its destination, if it has one. */
  lemma FileMapSpecNext(cfg: Config, files: seq<Name>, i: nat)
    requires i < |files|
    ensures Destination(cfg, files[i]).Some? ==>
              FileMapSpec(cfg, files[..i + 1]) == FileMapSpec(cfg, files[..i]).Put(files[i], Destination(cfg, files[i]).value)
    ensures Destination(cfg, files[i]).None? ==> FileMapSpec(cfg, files[..i + 1]) == FileMapSpec(cfg, files[..i])
  {
    assert files[..i + 1][..i] == files[..i];
  }

  /** Reference definition of the key order: the mapped names, in listing order. */
  function MappedNames(cfg: Config, files: seq<Name>): seq<Name>
  {
    if files == [] then []
    else
      var f := files[|files| - 1];
      MappedNames(cfg, files[..|files| - 1]) + (if Destination(cfg, f).Some? then [f] else [])
  }

  /** The map holds exactly the gist files that have a destination, each with
      that destination. */
  lemma {:induction false} FileMapSpecEntries(cfg: Config, files: seq<Name>)
    ensures forall f :: f in FileMapSpec(cfg, files).dest <==> f in files && Destination(cfg, f).Some?
    ensures forall f :: f in FileMapSpec(cfg, files).dest ==>
              Destination(cfg, f) == Some(FileMapSpec(cfg, files).dest[f])
  {
    if files != [] {
      var init := files[..|files| - 1];
      FileMapSpecEntries(cfg, init);
      assert files == init + [files[|files| - 1]];
    }
  }

  /** For a listing without repeats, the dict iterates in listing order over
      the mapped names. */
  lemma {:induction false} FileMapSpecOrder(cfg: Config, files: seq<Name>)
    requires Distinct(files)
    ensures FileMapSpec(cfg, files).keys == MappedNames(cfg, files)
  {
    if files != [] {
      var init := files[..|files| - 1];
      var f := files[|files| - 1];
      assert Distinct(init);
      FileMapSpecOrder(cfg, init);
      assert f !in init;
      assert f !in FileMapSpec(cfg, init).dest;
    }
  }

  /** same_names and all_to_directory: every gist file is a key, and goes to
      the target directory under its own name. */
  lemma SameNamesMapping(cfg: Config, files: seq<Name>)
    requires cfg.mappingStrategy == SAME_NAMES || cfg.mappingStrategy == ALL_TO_DIRECTORY
    ensures forall f :: f in FileMapSpec(cfg, files).dest <==> f in files
    ensures forall f :: f in FileMapSpec(cfg, files).dest ==>
              FileMapSpec(cfg, files).dest[f] == Join(cfg.targetPath, f)
  {
    FileMapSpecEntries(cfg, files);
  }

  /** prefix: every gist file is a key; a name starting with a non-empty
      prefix loses it, any other name gains it. */
  lemma PrefixMapping(cfg: Config, files: seq<Name>)
    requires cfg.mappingStrategy == PREFIX
    ensures forall f :: f in FileMapSpec(cfg, files).dest <==> f in files
    ensures forall f :: f in FileMapSpec(cfg, files).dest && cfg.filePrefix != [] && cfg.filePrefix <= f ==>
              FileMapSpec(cfg, files).dest[f] == Join(cfg.targetPath, f[|cfg.filePrefix|..])
    ensures forall f :: f in FileMapSpec(cfg, files).dest && !(cfg.filePrefix <= f) ==>
              FileMapSpec(cfg, files).dest[f] == Join(cfg.targetPath, cfg.filePrefix + f)
    ensures forall f :: f in FileMapSpec(cfg, files).dest && cfg.filePrefix == [] ==>
              FileMapSpec(cfg, files).dest[f] == Join(cfg.targetPath, f)
  {
    FileMapSpecEntries(cfg, files);
  }

  /** explicit: the keys are the gist files the table names, each mapped to
      the table's value as it stands (not joined with the target directory). */
  lemma ExplicitMapping(cfg: Config, files: seq<Name>)
    requires cfg.mappingStrategy == EXPLICIT
    ensures forall f :: f in FileMapSpec(cfg, files).dest <==> f in files && f in cfg.fileMappings
    ensures forall f :: f in FileMapSpec(cfg, files).dest ==>
              FileMapSpec(cfg, files).dest[f] == cfg.fileMappings[f]
  {
    FileMapSpecEntries(cfg, files);
  }

  /** same_names and all_to_directory: distinct gist files get distinct
      destinations, so two files can share a destination only under explicit
      or prefix. */
  lemma SameNamesDistinctDestinations(cfg: Config, files: seq<Name>)
    requires cfg.mappingStrategy == SAME_NAMES || cfg.mappingStrategy == ALL_TO_DIRECTORY
    ensures var m := FileMapSpec(cfg, files);
      forall f, g :: f in m.dest && g in m.dest && f != g ==> m.dest[f] != m.dest[g]
  {
    var m := FileMapSpec(cfg, files);
    SameNamesMapping(cfg, files);
    forall f, g | f in m.dest && g in m.dest && m.dest[f] == m.dest[g]
      ensures f == g
    {
      JoinInjective(cfg.targetPath, f, g);
    }
  }

  /** Putting the prefix on and taking it off again gives the name back. */
  lemma PrefixRenameRoundTrip(prefix: string, name: Name)
    requires !(prefix <= name)
    ensures PrefixRename(prefix, PrefixRename(prefix, name)) == name
  {
    assert prefix <= prefix + name;
    assert (prefix + name)[|prefix|..] == name;
  }

  /** Taking the prefix off is not undone by renaming again when the rest
      still starts with the prefix. */
  lemma PrefixRenameStripNotInvertible()
    ensures PrefixRename("snip_", PrefixRename("snip_", "snip_snip_a")) != "snip_snip_a"
  {
    assert PrefixRename("snip_", "snip_snip_a") == "snip_a";
    assert PrefixRename("snip_", "snip_a") == "a";
  }

  /** build_file_map: the dict of its strategy, or an error for an unknown one. */
  method BuildFileMap(cfg: Config, gistFiles: seq<Name>) returns (r: Result<FileMap>)
    ensures r.Failure? <==> !KnownMappingStrategy(cfg.mappingStrategy)
    ensures r.Failure? ==> r.error == UnknownMappingStrategy(cfg.mappingStrategy)
    ensures r.Success? ==> r.value == FileMapSpec(cfg, gistFiles)
  {
    var fileMap := EmptyMap;
    if cfg.mappingStrategy == EXPLICIT {
      for i := 0 to |gistFiles|
        invariant fileMap == FileMapSpec(cfg, gistFiles[..i])
      {
        var gistFile := gistFiles[i];
        FileMapSpecNext(cfg, gistFiles, i);
        if gistFile in cfg.fileMappings {
          fileMap := fileMap.Put(gistFile, cfg.fileMappings[gistFile]);
        }
        // otherwise the file is skipped with a warning
      }
    } else if cfg.mappingStrategy == SAME_NAMES {
      for i := 0 to |gistFiles|
        invariant fileMap == FileMapSpec(cfg, gistFiles[..i])
      {
        var gistFile := gistFiles[i];
        FileMapSpecNext(cfg, gistFiles, i);
        var targetFile := Join(cfg.targetPath, gistFile);
        fileMap := fileMap.Put(gistFile, targetFile);
      }
    } else if cfg.mappingStrategy == PREFIX {
      for i := 0 to |gistFiles|
        invariant fileMap == FileMapSpec(cfg, gistFiles[..i])
      {
        var gistFile := gistFiles[i];
        FileMapSpecNext(cfg, gistFiles, i);
        var newName;
        if cfg.filePrefix != [] && cfg.filePrefix <= gistFile {
          newName := gistFile[|cfg.filePrefix|..];
        } else {
          newName := cfg.filePrefix + gistFile;
        }
        var targetFile := Join(cfg.targetPath, newName);
        fileMap := fileMap.Put(gistFile, targetFile);
      }
    } else if cfg.mappingStrategy == ALL_TO_DIRECTORY {
      for i := 0 to |gistFiles|
        invariant fileMap == FileMapSpec(cfg, gistFiles[..i])
      {
        var gistFile := gistFiles[i];
        FileMapSpecNext(cfg, gistFiles, i);
        var targetFile := Join(cfg.targetPath, gistFile);
        fileMap := fileMap.Put(gistFile, targetFile);
      }
    } else {
      return Failure(UnknownMappingStrategy(cfg.mappingStrategy));
    }
    assert gistFiles[..|gistFiles|] == gistFiles;
    r := Success(fileMap);
  }
}

=== FILE: listing.dfy ===
/** The gist's file listing: the clone directory's entries without the
    version-control metadata entry. */
module Listing {
  import opened Types

  predicate Distinct(s: seq<Name>) {
    forall i, j :: 0 <= i < j < |s| ==> s[i] != s[j]
  }

  /** The list with its first occurrence of `x` taken out, as Python's
      `list.remove` leaves it; the list itself when `x` is absent. */
  function RemoveFirst(s: seq<Name>, x: Name): (r: seq<Name>)
    ensures x !in s ==> r == s
    ensures x in s ==> |r| == |s| - 1
  {
    if s == [] then []
    else if s[0] == x then s[1..]
    else [s[0]] + RemoveFirst(s[1..], x)
  }

  /** Removing takes out one copy of `x` and leaves every other entry. */
  lemma {:induction false} RemoveFirstMultiset(s: seq<Name>, x: Name)
    ensures multiset(RemoveFirst(s, x)) == multiset(s) - multiset{x}
  {
    if s != [] {
      assert s == [s[0]] + s[1..];
      if s[0] != x {
        RemoveFirstMultiset(s[1..], x);
      }
    }
  }

  /** Reference definition: every entry other than `x`, in order. */
  function Without(s: seq<Name>, x: Name): (r: seq<Name>)
    ensures x !in r
  {
    if s == [] then []
    else (if s[0] == x then [] else [s[0]]) + Without(s[1..], x)
  }

  /** Every entry other than `x` survives the filtering. */
  lemma {:induction false} WithoutKeeps(s: seq<Name>, x: Name, y: Name)
    requires y != x
    ensures y in Without(s, x) <==> y in s
  {
    if s != [] {
      WithoutKeeps(s[1..], x, y);
      assert s == [s[0]] + s[1..];
    }
  }

  lemma {:induction false} WithoutAbsent(s: seq<Name>, x: Name)
    requires x !in s
    ensures Without(s, x) == s
  {
    if s != [] {
      WithoutAbsent(s[1..], x);
    }
  }

  /** In a listing without repeated names (a directory listing), removing
      the first occurrence removes every occurrence and keeps the rest in order. */
  lemma {:induction false} RemoveFirstOfDistinct(s: seq<Name>, x: Name)
    requires Distinct(s)
    ensures RemoveFirst(s, x) == Without(s, x)
  {
    if s != [] {
      assert Distinct(s[1..]);
      if s[0] == x {
        assert x !in s[1..];
        WithoutAbsent(s[1..], x);
      } else {
        RemoveFirstOfDistinct(s[1..], x);
      }
    }
  }

  /** Where the first occurrence of `x` sits, RemoveFirst cuts it out. */
  lemma {:induction false} RemoveFirstAt(s: seq<Name>, x: Name, i: nat)
    requires i <= |s| && x !in s[..i]
    requires i < |s| ==> s[i] == x
    ensures RemoveFirst(s, x) == if i < |s| then s[..i] + s[i + 1..] else s
  {
    if i == |s| {
      assert s[..i] == s;
    } else if i > 0 {
      var t := s[1..];
      assert s[0] == s[..i][0] && s[0] != x;
      assert x !in t[..i - 1] by {
        assert t[..i - 1] == s[..i][1..];
      }
      RemoveFirstAt(t, x, i - 1);
      calc {
        RemoveFirst(s, x);
        [s[0]] + RemoveFirst(t, x);
        [s[0]] + (t[..i - 1] + t[i..]);
        { assert [s[0]] + t[..i - 1] == s[..i] && t[i..] == s[i + 1..]; }
        s[..i] + s[i + 1..];
      }
    }
  }

  /** get_gist_files: the directory listing with '.git' removed. */
  method GetGistFiles(listing: seq<Name>) returns (files: seq<Name>)
    ensures files == RemoveFirst(listing, GIT_ENTRY)
  {
    // `'.git' in files`, a scan for the first occurrence
    var i := 0;
    while i < |listing| && listing[i] != GIT_ENTRY
      invariant i <= |listing|
      invariant GIT_ENTRY !in listing[..i]
    {
      assert listing[..i + 1] == listing[..i] + [listing[i]];
      i := i + 1;
    }
    files := listing;
    if i < |listing| {
      files := listing[..i] + listing[i + 1..];
    }
    RemoveFirstAt(listing, GIT_ENTRY, i);
  }
}

=== FILE: merge_policy.dfy ===
/** should_copy_file: whether one destination is written, by merge strategy. */
module MergePolicy {
  import opened Types

  /** The copy decision and the reason the log line gives for it. */
  datatype Decision = Decision(copy: bool, reason: string)

  /** Only skip_existing ever declines, and only for a destination that
      exists, as a file or as a directory; newer_only and unknown strategies
      fall back to overwriting. */
  function ShouldCopy(mergeStrategy: string, existing: set<Path>, target: Path): (d: Decision)
    ensures d.copy <==> !(mergeStrategy == SKIP_EXISTING && PathExists(existing, target))
  {
    if mergeStrategy == OVERWRITE then Decision(true, "overwrite strategy")
    else if mergeStrategy == SKIP_EXISTING then
      if PathExists(existing, target) then Decision(false, "file exists and skip_existing strategy")
      else Decision(true, "file does not exist")
    else if mergeStrategy == NEWER_ONLY then Decision(true, "overwrite (newer_only not implemented)")
    else Decision(true, "overwrite (unknown strategy)")
  }
}

=== FILE: partition.dfy ===
/** Splitting a sequence by a parallel sequence of yes/no decisions. */
module Partition {
  /** The entries of `xs` whose decision in `ds` is `want`, in order. */
  function Pick<T>(xs: seq<T>, ds: seq<bool>, want: bool): seq<T>
    requires |xs| == |ds|
  {
    if xs == [] then []
    else Pick(xs[..|xs| - 1], ds[..|ds| - 1], want) + (if ds[|ds| - 1] == want then [xs[|xs| - 1]] else [])
  }

  /** The two halves of a split hold as many entries as the whole. */
  lemma {:induction false} PickLengths<T>(xs: seq<T>, ds: seq<bool>)
    requires |xs| == |ds|
    ensures |Pick(xs, ds, true)| + |Pick(xs, ds, false)| == |xs|
  {
    if xs != [] {
      PickLengths(xs[..|xs| - 1], ds[..|ds| - 1]);
    }
  }

  /** Adding one entry to one half adds it to the whole. */
  lemma AppendToHalf<T>(yes: seq<T>, no: seq<T>, init: seq<T>, last: T, toYes: bool)
    requires multiset(yes) + multiset(no) == multiset(init)
    ensures toYes ==> multiset(yes + [last]) + multiset(no) == multiset(init + [last])
    ensures !toYes ==> multiset(yes) + multiset(no + [last]) == multiset(init + [last])
  {
  }

  /** The two halves of a split are, together, the whole, entry for entry. */
  lemma {:induction false} PickSplits<T>(xs: seq<T>, ds: seq<bool>)
    requires |xs| == |ds|
    ensures multiset(Pick(xs, ds, true)) + multiset(Pick(xs, ds, false)) == multiset(xs)
  {
    if xs != [] {
      var init, last := xs[..|xs| - 1], xs[|xs| - 1];
      PickSplits(init, ds[..|ds| - 1]);
      AppendToHalf(Pick(init, ds[..|ds| - 1], true), Pick(init, ds[..|ds| - 1], false), init, last, ds[|ds| - 1]);
      assert xs == init + [last];
    }
  }
}

=== FILE: scenarios.dfy ===
/** Whole runs on small concrete inputs. */
module Scenarios {
  import opened Types
  import opened Listing
  import opened FileMapping
  import opened MergePolicy
  import opened Sync
  import opened Syncer

  /** With the defaults, every gist file is a key and goes under "./" by its
      own name, everything is copied in map order, and create_pr is off. */
  lemma DefaultRun(gistId: string, token: string, files: seq<Name>, existing: set<Path>)
    ensures var cfg := DefaultConfig(gistId, token);
      var m := FileMapSpec(cfg, files);
      var s := SyncSpec(cfg, m.Values(), existing);
      && (forall f :: f in m.dest <==> f in files)
      && (forall f :: f in m.dest ==> m.dest[f] == "./" + f)
      && s.modified == m.Values() && s.skipped == []
      && !cfg.createPr
  {
    var cfg := DefaultConfig(gistId, token);
    SameNamesMapping(cfg, files);
    assert OVERWRITE != SKIP_EXISTING by { assert OVERWRITE[0] != SKIP_EXISTING[0]; }
    SyncOverwrite(cfg, FileMapSpec(cfg, files).Values(), existing);
  }

  /** The defaults, with "out/" as the target directory. */
  const OutConfig: Config := DefaultConfig("g1", "t").(targetPath := "out/")

  /** same_names into "out/" (whatever the merge strategy): each file goes
      under "out/" by its own name. */
  lemma OutDestinations(cfg: Config)
    requires cfg.mappingStrategy == SAME_NAMES && cfg.targetPath == "out/"
    ensures Destination(cfg, "a.txt") == Some("out/a.txt")
    ensures Destination(cfg, "b.txt") == Some("out/b.txt")
  {
    assert SAME_NAMES != EXPLICIT by { assert SAME_NAMES[0] != EXPLICIT[0]; }
    OutJoins();
  }

  /** same_names into "out/" after the first file. */
  lemma SameNamesFirst(cfg: Config)
    requires cfg.mappingStrategy == SAME_NAMES && cfg.targetPath == "out/"
    ensures FileMapSpec(cfg, ["a.txt"]) == FileMap(["a.txt"], map["a.txt" := "out/a.txt"])
  {
    assert ["a.txt"][..0] == [];
    OutDestinations(cfg);
  }

  /** same_names into "out/": both files are mapped under "out/", in order. */
  lemma SameNamesMap(cfg: Config)
    requires cfg.mappingStrategy == SAME_NAMES && cfg.targetPath == "out/"
    ensures FileMapSpec(cfg, ["a.txt", "b.txt"])
         == FileMap(["a.txt", "b.txt"], map["a.txt" := "out/a.txt", "b.txt" := "out/b.txt"])
  {
    var files := ["a.txt", "b.txt"];
    assert files[..1] == ["a.txt"] && files[..2] == files;
    OutDestinations(cfg);
    SameNamesFirst(cfg);
    FileMapSpecNext(cfg, files, 1);
    PutSecond();
  }

  /** Adding b.txt to the dict holding only a.txt puts it second. */
  lemma PutSecond()
    ensures FileMap(["a.txt"], map["a.txt" := "out/a.txt"]).Put("b.txt", "out/b.txt")
         == FileMap(["a.txt", "b.txt"], map["a.txt" := "out/a.txt", "b.txt" := "out/b.txt"])
  {
    assert "b.txt" != "a.txt" by { assert "b.txt"[0] != "a.txt"[0]; }
    assert ["a.txt"] + ["b.txt"] == ["a.txt", "b.txt"];
  }

  lemma OutJoins()
    ensures Join("out/", "a.txt") == "out/a.txt"
    ensures Join("out/", "b.txt") == "out/b.txt"
  {
    assert "out/" + "a.txt" == "out/a.txt";
    assert "out/" + "b.txt" == "out/b.txt";
  }

  /** A fetched clone runs the control flow on the listing without `.git`,
      its dict's keys and the destinations the sync modified. */
  lemma ExpectedFetched(cfg: Config, existing: set<Path>, listing: seq<Name>, git: GitAnswers)
    ensures var files := RemoveFirst(listing, GIT_ENTRY);
      var m := FileMapSpec(cfg, files);
      var s := SyncSpec(cfg, m.Values(), AddClone(cfg, Prepare(cfg, existing), listing));
      var flow := Control(cfg, true, files, m.keys, s.modified, git);
      var a := Expected(cfg, existing, Fetched(listing), git);
      a.outcome == flow.outcome && a.trace == flow.trace
  {
  }

  /** ... so listing a.txt and b.txt, with changes after staging and an
      accepted push, the whole run stages both files, commits, pushes and
      ends Synchronised. */
  lemma SameNamesRun(existing: set<Path>)
    ensures var a := Expected(OutConfig, existing, Fetched(["a.txt", "b.txt"]), GitAnswers(true, true, true, true));
      && a.outcome == Completed(Synchronised)
      && Staged(["out/a.txt", "out/b.txt"]) in a.trace && Committed in a.trace && Pushed in a.trace
  {
    var listing := ["a.txt", "b.txt"];
    assert GIT_ENTRY !in listing by {
      assert GIT_ENTRY[0] != "a.txt"[0] && GIT_ENTRY[0] != "b.txt"[0];
    }
    var m := FileMapSpec(OutConfig, listing);
    SameNamesMap(OutConfig);
    assert m.Values() == ["out/a.txt", "out/b.txt"];
    assert OVERWRITE != SKIP_EXISTING by { assert OVERWRITE[0] != SKIP_EXISTING[0]; }
    var cloned := AddClone(OutConfig, Prepare(OutConfig, existing), listing);
    SyncOverwrite(OutConfig, m.Values(), cloned);
    ExpectedFetched(OutConfig, existing, listing, GitAnswers(true, true, true, true));
  }

  /** The defaults, with the prefix strategy and prefix "snip_". */
  const SnipConfig: Config := DefaultConfig("g2", "t").(mappingStrategy := PREFIX, filePrefix := "snip_")

  /** With prefix "snip_", the prefixed name loses the prefix and the other gains it. */
  lemma SnipRenames()
    ensures PrefixRename("snip_", "snip_util.py") == "util.py"
    ensures PrefixRename("snip_", "other.py") == "snip_other.py"
  {
    assert "snip_" <= "snip_util.py";
    assert !("snip_" <= "other.py") by {
      assert "snip_"[0] != "other.py"[0];
    }
    assert "snip_" + "other.py" == "snip_other.py";
  }

  /** Under prefix "snip_" each file goes to its renamed destination. */
  lemma SnipDestinations()
    ensures Destination(SnipConfig, "snip_util.py") == Some("./util.py")
    ensures Destination(SnipConfig, "other.py") == Some("./snip_other.py")
  {
    var cfg := SnipConfig;
    assert cfg.mappingStrategy == PREFIX && cfg.filePrefix == "snip_" && cfg.targetPath == "./";
    assert PREFIX != EXPLICIT && PREFIX != SAME_NAMES by {
      assert PREFIX[0] != EXPLICIT[0] && PREFIX[0] != SAME_NAMES[0];
    }
    SnipRenames();
    SnipJoins();
  }

  lemma SnipJoins()
    ensures Join("./", "util.py") == "./util.py"
    ensures Join("./", "snip_other.py") == "./snip_other.py"
  {
    assert "./" + "util.py" == "./util.py";
    assert "./" + "snip_other.py" == "./snip_other.py";
  }

  /** prefix "snip_": the map sends each file to its renamed destination. */
  lemma PrefixRun()
    ensures FileMapSpec(SnipConfig, ["snip_util.py", "other.py"]).dest
         == map["snip_util.py" := "./util.py", "other.py" := "./snip_other.py"]
  {
    assert ["snip_util.py", "other.py"][..1] == ["snip_util.py"] && ["snip_util.py"][..0] == [];
    SnipDestinations();
    var m1 := FileMapSpec(SnipConfig, ["snip_util.py"]);
    assert m1.dest == map["snip_util.py" := "./util.py"];
    assert "other.py"[0] != "snip_util.py"[0];
  }

  /** The defaults, with "out/" as the target directory and the skip_existing
      merge strategy. */
  const SkipConfig: Config := DefaultConfig("g3", "t").(targetPath := "out/", mergeStrategy := SKIP_EXISTING)

  lemma SkipTargets()
    ensures Target(SkipConfig, "out/a.txt") == "./out/a.txt"
    ensures Target(SkipConfig, "out/b.txt") == "./out/b.txt"
  {
    assert SkipConfig.repoRoot == ".";
    assert "." + "/" + "out/a.txt" == "./out/a.txt";
    assert "." + "/" + "out/b.txt" == "./out/b.txt";
  }

  /** skip_existing with ./out/a.txt present and otherwise only the clone
      area gist-clone-temp: out/a.txt is skipped and out/b.txt is copied. */
  lemma SkipExistingRun(existing: set<Path>)
    requires "./out/a.txt" in existing
    requires forall p :: p in existing ==> p == "./out/a.txt" || Under(p, CLONE_ROOT)
    ensures var s := SyncSpec(SkipConfig, ["out/a.txt", "out/b.txt"], existing);
      s.modified == ["out/b.txt"] && s.skipped == ["out/a.txt"]
  {
    assert ["out/a.txt", "out/b.txt"][..1] == ["out/a.txt"] && ["out/a.txt"][..0] == [];
    SkipTargets();
    assert PathExists(existing, "./out/a.txt") by { assert Under("./out/a.txt", "./out/a.txt"); }
    assert SkipConfig.mergeStrategy == SKIP_EXISTING;
    assert !ShouldCopy(SKIP_EXISTING, existing, "./out/a.txt").copy;
    var s0 := SyncSpec(SkipConfig, [], existing);
    assert SyncSpec(SkipConfig, ["out/a.txt"], existing) == Step(SkipConfig, s0, "out/a.txt");
    forall p | p in existing ensures !Under(p, "./out/b.txt") {
      if p == "./out/a.txt" {
        assert p[6] != "./out/b.txt"[6];
      } else {
        assert p[0] == CLONE_ROOT[0] != "./out/b.txt"[0];
      }
    }
  }

  /** The clone for SkipConfig, made beside ./out/a.txt, holds ./out/a.txt
      and otherwise only paths in gist-clone-temp. */
  lemma SkipClone()
    ensures var c := AddClone(SkipConfig, Prepare(SkipConfig, {"./out/a.txt"}), ["a.txt", "b.txt"]);
      && "./out/a.txt" in c
      && forall p :: p in c ==> p == "./out/a.txt" || Under(p, CLONE_ROOT)
  {
    var dir := CloneDir(SkipConfig);
    assert !Under("./out/a.txt", dir) by { assert "./out/a.txt"[0] != dir[0]; }
    CloneInsideRoot(SkipConfig, Prepare(SkipConfig, {"./out/a.txt"}), ["a.txt", "b.txt"]);
  }

  /** ... so a whole skip_existing run over a gist listing a.txt and b.txt,
      with ./out/a.txt already present, changes and an accepted push, stages
      only out/b.txt, commits, pushes and ends Synchronised. */
  lemma SkipExistingWholeRun()
    ensures var a := Expected(SkipConfig, {"./out/a.txt"}, Fetched(["a.txt", "b.txt"]), GitAnswers(true, true, true, true));
      && a.outcome == Completed(Synchronised)
      && Staged(["out/b.txt"]) in a.trace && Pushed in a.trace
  {
    var listing := ["a.txt", "b.txt"];
    assert GIT_ENTRY !in listing by {
      assert GIT_ENTRY[0] != "a.txt"[0] && GIT_ENTRY[0] != "b.txt"[0];
    }
    var m := FileMapSpec(SkipConfig, listing);
    SameNamesMap(SkipConfig);
    assert m.Values() == ["out/a.txt", "out/b.txt"];
    var cloned := AddClone(SkipConfig, Prepare(SkipConfig, {"./out/a.txt"}), listing);
    SkipClone();
    SkipExistingRun(cloned);
    ExpectedFetched(SkipConfig, {"./out/a.txt"}, listing, GitAnswers(true, true, true, true));
  }

  /** skip_existing with two gist files mapped onto one new destination: the
      first copy creates it, so the same path ends up both modified and
      skipped, and the two lists are not disjoint. */
  lemma SharedDestinationRun()
    ensures var s := SyncSpec(SkipConfig, ["out/a.txt", "out/a.txt"], {});
      s.modified == ["out/a.txt"] && s.skipped == ["out/a.txt"]
  {
    assert ["out/a.txt", "out/a.txt"][..1] == ["out/a.txt"] && ["out/a.txt"][..0] == [];
    SkipTargets();
  }

  /** A gist with nothing but its metadata entry: the run stops with NoFiles
      before committing, and the clone directory it leaves is removed by the
      cleanup. */
  lemma EmptyGistRun(existing: set<Path>, git: GitAnswers)
    ensures var a := Expected(DefaultConfig("g4", "t"), existing, Fetched([".git"]), git);
      a.outcome == Completed(NoFiles) && Committed !in a.trace
      && PathExists(a.existing, CloneDir(DefaultConfig("g4", "t")))
  {
    var cfg := DefaultConfig("g4", "t");
    assert RemoveFirst([".git"], GIT_ENTRY) == [];
    CloneDirAfterAttempt(cfg, existing, Fetched([".git"]), git);
  }
}

=== FILE: sync.dfy ===
/** sync_files: walk the file map in order, copy what the merge policy allows
    and sort the destinations into modified and skipped. The filesystem is
    the set of paths that exist; a copy adds its target to it. */
module Sync {
  import opened Types
  import opened FileMapping
  import opened MergePolicy
  import opened Partition

  /** Where a repository-relative destination lands on disk: below the
      repository root, ending in the destination. */
  function Target(cfg: Config, rel: Path): (t: Path)
    ensures cfg.repoRoot <= t
    ensures |rel| <= |t| && t[|t| - |rel|..] == rel
  {
    Join(cfg.repoRoot, rel)
  }

  datatype SyncState = SyncState(modified: seq<Path>, skipped: seq<Path>, existing: set<Path>)

  /** One iteration of the loop, for destination `rel`. */
  function Step(cfg: Config, s: SyncState, rel: Path): (r: SyncState)
    ensures || (r.modified == s.modified + [rel] && r.skipped == s.skipped)
            || (r.modified == s.modified && r.skipped == s.skipped + [rel])
    ensures r.modified == s.modified + [rel]
        <==> ShouldCopy(cfg.mergeStrategy, s.existing, Target(cfg, rel)).copy
    ensures s.existing <= r.existing <= s.existing + {Target(cfg, rel)}
    ensures PathExists(r.existing, Target(cfg, rel))
  {
    var target := Target(cfg, rel);
    assert Under(target, target);
    if ShouldCopy(cfg.mergeStrategy, s.existing, target).copy
    then SyncState(s.modified + [rel], s.skipped, s.existing + {target})
    else SyncState(s.modified, s.skipped + [rel], s.existing)
  }

  /** The state after the loop has handled the destinations `rels`, in order. */
  function SyncSpec(cfg: Config, rels: seq<Path>, existing: set<Path>): (r: SyncState)
    ensures |r.modified| + |r.skipped| == |rels|
    ensures existing <= r.existing
  {
    if rels == [] then SyncState([], [], existing)
    else Step(cfg, SyncSpec(cfg, rels[..|rels| - 1], existing), rels[|rels| - 1])
  }

  /** The copy decision taken for each destination, in order. */
  function Copied(cfg: Config, rels: seq<Path>, existing: set<Path>): (ds: seq<bool>)
    ensures |ds| == |rels|
  {
    if rels == [] then []
    else
      var init := rels[..|rels| - 1];
      Copied(cfg, init, existing)
        + [ShouldCopy(cfg.mergeStrategy, SyncSpec(cfg, init, existing).existing, Target(cfg, rels[|rels| - 1])).copy]
  }

  /** The i-th decision is the merge policy asked about the i-th target with
      the files that exist once the earlier entries are handled. */
  lemma {:induction false} CopiedAt(cfg: Config, rels: seq<Path>, existing: set<Path>, i: nat)
    requires i < |rels|
    ensures Copied(cfg, rels, existing)[i]
         == ShouldCopy(cfg.mergeStrategy, SyncSpec(cfg, rels[..i], existing).existing, Target(cfg, rels[i])).copy
  {
    if i < |rels| - 1 {
      var init := rels[..|rels| - 1];
      CopiedAt(cfg, init, existing, i);
      assert init[..i] == rels[..i];
    }
  }

  /** Every destination goes to exactly one of the two lists, each list in
      map order: modified holds those copied, skipped the others. */
  lemma {:induction false} SyncPartition(cfg: Config, rels: seq<Path>, existing: set<Path>)
    ensures SyncSpec(cfg, rels, existing).modified == Pick(rels, Copied(cfg, rels, existing), true)
    ensures SyncSpec(cfg, rels, existing).skipped == Pick(rels, Copied(cfg, rels, existing), false)
  {
    if rels != [] {
      var init := rels[..|rels| - 1];
      SyncPartition(cfg, init, existing);
      var ds := Copied(cfg, rels, existing);
      assert ds[..|ds| - 1] == Copied(cfg, init, existing);
    }
  }

  /** Every destination lands in exactly one of the two lists: together they
      are the map's values, counted with repetition. */
  lemma SyncSplits(cfg: Config, rels: seq<Path>, existing: set<Path>)
    ensures var s := SyncSpec(cfg, rels, existing);
      multiset(s.modified) + multiset(s.skipped) == multiset(rels)
  {
    SyncPartition(cfg, rels, existing);
    PickSplits(rels, Copied(cfg, rels, existing));
  }

  /** What exists afterwards is what existed before plus the target of every
      modified destination: each copied file exists, nothing else appears. */
  lemma {:induction false} SyncExisting(cfg: Config, rels: seq<Path>, existing: set<Path>)
    ensures SyncSpec(cfg, rels, existing).existing
         == existing + set p | p in SyncSpec(cfg, rels, existing).modified :: Target(cfg, p)
  {
    if rels != [] {
      SyncExisting(cfg, rels[..|rels| - 1], existing);
    }
  }

  /** Under every strategy but skip_existing, one iteration copies. */
  lemma OverwriteStep(cfg: Config, s: SyncState, rel: Path)
    requires cfg.mergeStrategy != SKIP_EXISTING
    ensures Step(cfg, s, rel) == SyncState(s.modified + [rel], s.skipped, s.existing + {Target(cfg, rel)})
  {
  }

  /** Under every strategy but skip_existing, everything is copied in map
      order and nothing is skipped. */
  lemma {:induction false} SyncOverwrite(cfg: Config, rels: seq<Path>, existing: set<Path>)
    requires cfg.mergeStrategy != SKIP_EXISTING
    ensures SyncSpec(cfg, rels, existing).modified == rels
    ensures SyncSpec(cfg, rels, existing).skipped == []
  {
    if rels != [] {
      var init, last := rels[..|rels| - 1], rels[|rels| - 1];
      var s := SyncSpec(cfg, init, existing);
      SyncOverwrite(cfg, init, existing);
      OverwriteStep(cfg, s, last);
      assert rels == init + [last];
      assert SyncSpec(cfg, rels, existing).modified == s.modified + [last];
    }
  }

  /** Something at or below a path at or below `dir` is at or below `dir`. */
  lemma UnderTransitive(a: Path, b: Path, c: Path)
    requires Under(a, b) && Under(b, c)
    ensures Under(a, c)
  {
    if a != b && b != c {
      assert c + "/" <= a by {
        assert b == a[..|b|];
        assert c + "/" == b[..|c| + 1] == a[..|c| + 1];
      }
    }
  }

  /** After one iteration something exists at or below `path` exactly when it
      did before or the iteration's target lies at or below `path`. */
  lemma StepExists(cfg: Config, s: SyncState, rel: Path, path: Path)
    ensures PathExists(Step(cfg, s, rel).existing, path)
        <==> PathExists(s.existing, path) || Under(Target(cfg, rel), path)
  {
    var after := Step(cfg, s, rel).existing;
    var t := Target(cfg, rel);
    if PathExists(after, path) {
      var q :| q in after && Under(q, path);
      assert q in s.existing || q == t;
    }
    if Under(t, path) {
      var q :| q in after && Under(q, t);
      UnderTransitive(q, t, path);
    } else if PathExists(s.existing, path) {
      var q :| q in s.existing && Under(q, path);
      assert q in after;
    }
  }

  /** Some target lies at or below `path` exactly when one of the earlier
      entries' does or the last one's does. */
  lemma SomeTargetUnderLast(cfg: Config, rels: seq<Path>, path: Path)
    requires rels != []
    ensures var init := rels[..|rels| - 1];
      (exists j :: 0 <= j < |rels| && Under(Target(cfg, rels[j]), path))
        <==> (exists j :: 0 <= j < |init| && Under(Target(cfg, init[j]), path))
             || Under(Target(cfg, rels[|rels| - 1]), path)
  {
    var init, n := rels[..|rels| - 1], |rels| - 1;
    if exists j :: 0 <= j < |rels| && Under(Target(cfg, rels[j]), path) {
      var j :| 0 <= j < |rels| && Under(Target(cfg, rels[j]), path);
      if j < n {
        assert init[j] == rels[j];
        assert 0 <= j < |init| && Under(Target(cfg, init[j]), path);
      }
    }
    if exists j :: 0 <= j < |init| && Under(Target(cfg, init[j]), path) {
      var j :| 0 <= j < |init| && Under(Target(cfg, init[j]), path);
      assert init[j] == rels[j];
      assert 0 <= j < |rels| && Under(Target(cfg, rels[j]), path);
    } else if Under(Target(cfg, rels[n]), path) {
      assert 0 <= n < |rels| && Under(Target(cfg, rels[n]), path);
    }
  }

  /** Under skip_existing, something exists at or below `path` after the sync
      exactly when it did before or the target of some entry lies at or below
      `path`: every target exists afterwards, copied or not. */
  lemma {:induction false} SkipExistingExists(cfg: Config, rels: seq<Path>, existing: set<Path>, path: Path)
    requires cfg.mergeStrategy == SKIP_EXISTING
    ensures PathExists(SyncSpec(cfg, rels, existing).existing, path)
        <==> PathExists(existing, path) || exists j :: 0 <= j < |rels| && Under(Target(cfg, rels[j]), path)
  {
    if rels != [] {
      var init, last := rels[..|rels| - 1], rels[|rels| - 1];
      SkipExistingExists(cfg, init, existing, path);
      StepExists(cfg, SyncSpec(cfg, init, existing), last, path);
      SomeTargetUnderLast(cfg, rels, path);
    }
  }

  /** Under skip_existing a destination is copied exactly when nothing existed
      at or below its target beforehand and no earlier entry's target lies at
      or below it: a second gist file mapped onto the same path is skipped, and
      so is a target that an earlier copy made into a directory. */
  lemma SkipExistingDecision(cfg: Config, rels: seq<Path>, existing: set<Path>, i: nat)
    requires cfg.mergeStrategy == SKIP_EXISTING && i < |rels|
    ensures Copied(cfg, rels, existing)[i]
        <==> !PathExists(existing, Target(cfg, rels[i]))
             && forall j :: 0 <= j < i ==> !Under(Target(cfg, rels[j]), Target(cfg, rels[i]))
  {
    CopiedAt(cfg, rels, existing, i);
    var t := Target(cfg, rels[i]);
    SkipExistingExists(cfg, rels[..i], existing, t);
    if exists j :: 0 <= j < i && Under(Target(cfg, rels[..i][j]), t) {
      var j :| 0 <= j < i && Under(Target(cfg, rels[..i][j]), t);
      assert rels[..i][j] == rels[j];
    } else {
      forall j | 0 <= j < i ensures !Under(Target(cfg, rels[j]), t) {
        assert rels[..i][j] == rels[j];
      }
    }
  }

  /** Under skip_existing no target at or below which something existed
      before the sync is written, and nothing that existed disappears. */
  lemma {:induction false} SkipExistingNeverOverwrites(cfg: Config, rels: seq<Path>, existing: set<Path>)
    requires cfg.mergeStrategy == SKIP_EXISTING
    ensures forall p :: p in SyncSpec(cfg, rels, existing).modified ==> !PathExists(existing, Target(cfg, p))
    ensures existing <= SyncSpec(cfg, rels, existing).existing
  {
    if rels != [] {
      SkipExistingNeverOverwrites(cfg, rels[..|rels| - 1], existing);
    }
  }

  /** sync_files: the loop over the dict's items. Returns the modified and
      skipped destinations and the files that exist afterwards. */
  method SyncFiles(cfg: Config, fileMap: FileMap, existing: set<Path>)
    returns (modified: seq<Path>, skipped: seq<Path>, existingAfter: set<Path>)
    requires fileMap.Valid()
    ensures SyncState(modified, skipped, existingAfter) == SyncSpec(cfg, fileMap.Values(), existing)
    ensures |modified| + |skipped| == |fileMap.keys|
    ensures cfg.mergeStrategy != SKIP_EXISTING ==> modified == fileMap.Values() && skipped == []
    ensures forall p :: p in modified ==> Target(cfg, p) in existingAfter
  {
    modified, skipped, existingAfter := [], [], existing;
    ghost var rels := fileMap.Values();
    for i := 0 to |fileMap.keys|
      invariant SyncState(modified, skipped, existingAfter) == SyncSpec(cfg, rels[..i], existing)
    {
      var gistFile := fileMap.keys[i];
      var repoRelativePath := fileMap.dest[gistFile];
      var repoTarget := Target(cfg, repoRelativePath);
      assert rels[..i + 1][..i] == rels[..i];
      var decision := ShouldCopy(cfg.mergeStrategy, existingAfter, repoTarget);
      if decision.copy {
        existingAfter := existingAfter + {repoTarget};   // shutil.copy2
        modified := modified + [repoRelativePath];
      } else {
        skipped := skipped + [repoRelativePath];
      }
    }
    assert rels[..|fileMap.keys|] == rels;
    SyncExisting(cfg, rels, existing);
    if cfg.mergeStrategy != SKIP_EXISTING {
      SyncOverwrite(cfg, rels, existing);
    }
  }
}

=== FILE: syncer.dfy ===
/** GistToRepoSync.run: prepare, clone, list, map, sync, then commit or open
    a pull request, with the clone directory removed on every way out.
    The clone and the git repository's answers are outside the model: they
    come in as parameters. */
module Syncer {
  import opened Types
  import opened Listing
  import opened FileMapping
  import opened MergePolicy
  import opened Sync

  /** What cloning the gist gave: the clone directory's listing, or a failure. */
  datatype CloneResult = Fetched(listing: seq<Name>) | Unavailable

  /** How the target repository answers commit_changes: whether opening it,
      writing the identity, staging and asking is_dirty succeed; whether it is
      dirty after staging; whether the commit and the push succeed. */
  datatype GitAnswers = GitAnswers(preCommitOk: bool, dirtyAfterStaging: bool,
                                   commitOk: bool, pushOk: bool)

  /** The steps of a run, recorded as they complete. */
  datatype RunStep =
    | Prepared
    | Cloned
    | Listed
    | Mapped
    | Synced
    | IdentityConfigured(name: string, email: string)
    | Staged(files: seq<Path>)
    | Committed
    | Pushed
    | PullRequestAttempted
    | CleanedUp

  /** The ways a run ends without raising. */
  datatype Exit = NoFiles | NoMappings | NoneModified | NoChanges | Synchronised

  datatype Outcome = Completed(exit: Exit) | Raised(error: Error)

  /** Where run's try block ends and the steps it took. */
  datatype Flow = Flow(outcome: Outcome, trace: seq<RunStep>)

  /** What the body of the try block leaves behind. */
  datatype Attempted = Attempted(outcome: Outcome, trace: seq<RunStep>, existing: set<Path>)

  /** gist-clone-temp/<gist id>, as the path it names: a directory strictly
      inside gist-clone-temp named by the gist id, or, for an empty gist id,
      gist-clone-temp itself (the trailing separator names the same
      directory). */
  function CloneDir(cfg: Config): (d: Path)
    ensures cfg.gistId != "" ==> CLONE_ROOT + "/" <= d && d[|CLONE_ROOT| + 1..] == cfg.gistId
    ensures cfg.gistId == "" ==> d == CLONE_ROOT
  {
    if cfg.gistId == "" then CLONE_ROOT else CLONE_ROOT + "/" + cfg.gistId
  }

  /** shutil.rmtree: the directory and everything below it are gone, and
      nothing else is touched. */
  function RemoveTree(existing: set<Path>, dir: Path): (r: set<Path>)
    ensures !PathExists(r, dir)
    ensures forall p :: p in existing && !Under(p, dir) ==> p in r
    ensures r <= existing
  {
    set p | p in existing && !Under(p, dir)
  }

  /** prepare_gist_clone_dir: nothing is left below the clone directory, and
      its parent gist-clone-temp exists (os.makedirs). For an empty gist id
      the clone directory is that parent: it is removed and made again, empty. */
  function Prepare(cfg: Config, existing: set<Path>): (r: set<Path>)
    ensures forall p :: p in r && Under(p, CloneDir(cfg)) ==> p == CLONE_ROOT
    ensures cfg.gistId != "" ==> !PathExists(r, CloneDir(cfg))
    ensures CLONE_ROOT in r
    ensures r <= existing + {CLONE_ROOT}
    ensures forall p :: p in existing && !Under(p, CloneDir(cfg)) ==> p in r
  {
    assert cfg.gistId != "" ==> !Under(CLONE_ROOT, CloneDir(cfg));
    (if PathExists(existing, CloneDir(cfg)) then RemoveTree(existing, CloneDir(cfg)) else existing)
      + {CLONE_ROOT}
  }

  /** A successful clone creates the clone directory and its entries. */
  function AddClone(cfg: Config, existing: set<Path>, listing: seq<Name>): (r: set<Path>)
    ensures existing <= r
    ensures PathExists(r, CloneDir(cfg))
    ensures forall n :: n in listing ==> Join(CloneDir(cfg), n) in r
  {
    assert Under(CloneDir(cfg), CloneDir(cfg));
    existing + {CloneDir(cfg)} + set n | n in listing :: Join(CloneDir(cfg), n)
  }

  /** The control flow of run's try block, given what its steps produced:
      whether the clone succeeded, the gist files, the file map's keys and
      the modified destinations. */
  function Control(cfg: Config, cloned: bool, files: seq<Name>, mapped: seq<Name>,
                   modified: seq<Path>, git: GitAnswers): (r: Flow)
    ensures r.trace != [] && r.trace[0] == Prepared
    ensures Cloned in r.trace <==> cloned
    ensures r.outcome == Raised(CloneFailed) <==> !cloned
    ensures CleanedUp !in r.trace
  {
    if !cloned then Flow(Raised(CloneFailed), [Prepared])
    else
      var listed := [Prepared] + [Cloned] + [Listed];
      if files == [] then Flow(Completed(NoFiles), listed)
      else if !KnownMappingStrategy(cfg.mappingStrategy) then
        Flow(Raised(UnknownMappingStrategy(cfg.mappingStrategy)), listed)
      else
        var afterMap := listed + [Mapped];
        if mapped == [] then Flow(Completed(NoMappings), afterMap)
        else
          var synced := afterMap + [Synced];
          if modified == [] then Flow(Completed(NoneModified), synced)
          else if cfg.createPr then Flow(Raised(NotImplemented), synced + [PullRequestAttempted])
          else
            // commit_changes
            if !git.preCommitOk then Flow(Raised(GitFailed), synced)
            else
              var staged := synced + [IdentityConfigured(cfg.gitUserName, cfg.gitUserEmail), Staged(modified)];
              if !git.dirtyAfterStaging then Flow(Completed(NoChanges), staged)
              else if !git.commitOk then Flow(Raised(CommitFailed), staged)
              else
                var committed := staged + [Committed];
                if !git.pushOk then Flow(Raised(PushFailed), committed)
                else Flow(Completed(Synchronised), committed + [Pushed])
  }

  /** The try block of run: the steps' results fed through its control flow.
      The workspace shows the sync's copies once the sync has run. */
  function Expected(cfg: Config, existing: set<Path>, clone: CloneResult, git: GitAnswers): Attempted
  {
    var prepared := Prepare(cfg, existing);
    match clone
    case Unavailable =>
      var flow := Control(cfg, false, [], [], [], git);
      Attempted(flow.outcome, flow.trace, prepared)
    case Fetched(listing) => AfterClone(cfg, AddClone(cfg, prepared, listing), listing, git)
  }

  /** The try block once the clone, listing `listing`, exists in `cloned`. */
  function AfterClone(cfg: Config, cloned: set<Path>, listing: seq<Name>, git: GitAnswers): Attempted
  {
    var files := RemoveFirst(listing, GIT_ENTRY);
    var fileMap := FileMapSpec(cfg, files);
    var s := SyncSpec(cfg, fileMap.Values(), cloned);
    var flow := Control(cfg, true, files, fileMap.keys, s.modified, git);
    Attempted(flow.outcome, flow.trace, if Synced in flow.trace then s.existing else cloned)
  }

  /** The run stops successfully, without syncing or committing, when the gist
      has no files or no file has a destination; it stops without committing
      when nothing was modified. */
  lemma EarlyExits(cfg: Config, cloned: bool, files: seq<Name>, mapped: seq<Name>,
                   modified: seq<Path>, git: GitAnswers)
    ensures var flow := Control(cfg, cloned, files, mapped, modified, git);
      && (flow.outcome == Completed(NoFiles) <==> cloned && files == [])
      && (flow.outcome == Completed(NoMappings) <==>
            cloned && files != [] && KnownMappingStrategy(cfg.mappingStrategy) && mapped == [])
      && (flow.outcome == Completed(NoneModified) <==>
            cloned && files != [] && KnownMappingStrategy(cfg.mappingStrategy) && mapped != [] && modified == [])
      && (flow.outcome in {Completed(NoFiles), Completed(NoMappings)} ==> Synced !in flow.trace)
      && (flow.outcome in {Completed(NoFiles), Completed(NoMappings), Completed(NoneModified)} ==>
            Committed !in flow.trace && PullRequestAttempted !in flow.trace)
  {
  }

  /** With create_pr set the run never commits or pushes, and once a file
      was modified it raises NotImplemented. */
  lemma PullRequestNeverCommits(cfg: Config, cloned: bool, files: seq<Name>, mapped: seq<Name>,
                                modified: seq<Path>, git: GitAnswers)
    requires cfg.createPr
    ensures var flow := Control(cfg, cloned, files, mapped, modified, git);
      && Committed !in flow.trace && Pushed !in flow.trace
      && (Synced in flow.trace && modified != [] ==> flow.outcome == Raised(NotImplemented))
  {
  }

  /** A commit happens only without create_pr, after a sync that modified
      files, and it is the modified files that are staged. */
  lemma CommitOnlyAfterSync(cfg: Config, cloned: bool, files: seq<Name>, mapped: seq<Name>,
                            modified: seq<Path>, git: GitAnswers)
    ensures var flow := Control(cfg, cloned, files, mapped, modified, git);
      Committed in flow.trace ==>
        && !cfg.createPr && git.preCommitOk && git.dirtyAfterStaging && git.commitOk
        && Synced in flow.trace
        && modified != [] && Staged(modified) in flow.trace
        && (Pushed in flow.trace <==> flow.outcome == Completed(Synchronised))
  {
  }

  /** commit_changes fails in three places. A failure before the commit
      (opening the repository, writing the identity, staging, is_dirty) or of
      the commit leaves no commit; a failed push leaves the commit unpushed.
      Each happens exactly when the run reaches that call and it raises. */
  lemma GitFailures(cfg: Config, cloned: bool, files: seq<Name>, mapped: seq<Name>,
                    modified: seq<Path>, git: GitAnswers)
    ensures var flow := Control(cfg, cloned, files, mapped, modified, git);
      var reachesCommit := cloned && files != [] && KnownMappingStrategy(cfg.mappingStrategy)
                           && mapped != [] && modified != [] && !cfg.createPr;
      && (flow.outcome == Raised(GitFailed) <==> reachesCommit && !git.preCommitOk)
      && (flow.outcome == Raised(CommitFailed) <==>
            reachesCommit && git.preCommitOk && git.dirtyAfterStaging && !git.commitOk)
      && (flow.outcome == Raised(PushFailed) <==>
            reachesCommit && git.preCommitOk && git.dirtyAfterStaging && git.commitOk
            && !git.pushOk)
      && (flow.outcome in {Raised(GitFailed), Raised(CommitFailed)} ==> Committed !in flow.trace)
      && (flow.outcome == Raised(PushFailed) ==> Committed in flow.trace && Pushed !in flow.trace)
  {
  }

  /** Once a sync modified files, the run opens a pull request and raises
      NotImplemented under create_pr; otherwise commit_changes ends it
      successfully in two ways: NoChanges when the repository is clean after
      staging (no commit), Synchronised when the commit and push succeed. */
  lemma CommitOutcomes(cfg: Config, cloned: bool, files: seq<Name>, mapped: seq<Name>,
                       modified: seq<Path>, git: GitAnswers)
    ensures var flow := Control(cfg, cloned, files, mapped, modified, git);
      var reachesStep5 := cloned && files != [] && KnownMappingStrategy(cfg.mappingStrategy)
                          && mapped != [] && modified != [];
      && (flow.outcome == Raised(NotImplemented) <==> reachesStep5 && cfg.createPr)
      && (flow.outcome == Completed(NoChanges) <==>
            reachesStep5 && !cfg.createPr && git.preCommitOk && !git.dirtyAfterStaging)
      && (flow.outcome == Completed(Synchronised) <==>
            reachesStep5 && !cfg.createPr && git.preCommitOk && git.dirtyAfterStaging
            && git.commitOk && git.pushOk)
      && (flow.outcome == Completed(NoChanges) ==> Committed !in flow.trace && Staged(modified) in flow.trace)
  {
  }

  /** The clone creates nothing outside gist-clone-temp. */
  lemma CloneInsideRoot(cfg: Config, existing: set<Path>, listing: seq<Name>)
    ensures forall p :: p in AddClone(cfg, existing, listing) ==> p in existing || Under(p, CLONE_ROOT)
  {
    var dir := CloneDir(cfg);
    forall p | p in AddClone(cfg, existing, listing) && p !in existing
      ensures Under(p, CLONE_ROOT)
    {
      if p != dir {
        var n :| n in listing && p == Join(dir, n);
        if cfg.gistId == "" {
          assert CLONE_ROOT + "/" == p[..|CLONE_ROOT| + 1];
        } else {
          assert CLONE_ROOT + "/" == dir[..|CLONE_ROOT| + 1] == p[..|CLONE_ROOT| + 1];
        }
      }
    }
  }

  /** gist-clone-temp, made by prepare_gist_clone_dir, exists at the end of
      the try block whatever happened. */
  lemma CloneRootAfterAttempt(cfg: Config, existing: set<Path>, clone: CloneResult, git: GitAnswers)
    ensures CLONE_ROOT in Expected(cfg, existing, clone, git).existing
  {
    var prepared := Prepare(cfg, existing);
    if clone.Fetched? {
      var cloned := AddClone(cfg, prepared, clone.listing);
      var fileMap := FileMapSpec(cfg, RemoveFirst(clone.listing, GIT_ENTRY));
      assert cloned <= SyncSpec(cfg, fileMap.Values(), cloned).existing;
    }
  }

  /** The clone directory exists at the end of the try block exactly when the
      clone succeeded or it is gist-clone-temp itself (an empty gist id):
      copies only add files, and a failed clone leaves the prepared workspace
      without a clone directory of its own. */
  lemma {:induction false} CloneDirAfterAttempt(cfg: Config, existing: set<Path>, clone: CloneResult, git: GitAnswers)
    ensures var a := Expected(cfg, existing, clone, git);
      PathExists(a.existing, CloneDir(cfg)) <==> Cloned in a.trace || cfg.gistId == ""
  {
    var a := Expected(cfg, existing, clone, git);
    var dir := CloneDir(cfg);
    var prepared := Prepare(cfg, existing);
    if cfg.gistId == "" {
      CloneRootAfterAttempt(cfg, existing, clone, git);
      assert CLONE_ROOT in a.existing && Under(CLONE_ROOT, dir);
    } else if clone.Fetched? {
      var cloned := AddClone(cfg, prepared, clone.listing);
      var fileMap := FileMapSpec(cfg, RemoveFirst(clone.listing, GIT_ENTRY));
      SyncExisting(cfg, fileMap.Values(), cloned);
      assert cloned <= a.existing;
      assert dir in a.existing && Under(dir, dir);
      assert Cloned in a.trace;
    } else {
      assert a.trace == [Prepared];
    }
  }

  /** The body of run's try block: each step in turn, returning early. */
  method Attempt(cfg: Config, existing0: set<Path>, clone: CloneResult, git: GitAnswers)
    returns (outcome: Outcome, trace: seq<RunStep>, existing: set<Path>)
    ensures Attempted(outcome, trace, existing) == Expected(cfg, existing0, clone, git)
  {
    // Step 1: prepare and clone
    existing := existing0;
    if PathExists(existing, CloneDir(cfg)) {
      existing := RemoveTree(existing, CloneDir(cfg));
    }
    existing := existing + {CLONE_ROOT};   // os.makedirs of the parent
    assert existing == Prepare(cfg, existing0);
    trace := [Prepared];
    if clone.Unavailable? {
      return Raised(CloneFailed), trace, existing;
    }
    existing := AddClone(cfg, existing, clone.listing);
    outcome, trace, existing := AttemptAfterClone(cfg, existing, clone.listing, git);
  }

  /** The try block from the listing of the clone on: steps 2 to 5, each
      returning early. The trace starts with the steps already taken. */
  method AttemptAfterClone(cfg: Config, cloned: set<Path>, listing: seq<Name>, git: GitAnswers)
    returns (outcome: Outcome, trace: seq<RunStep>, existing: set<Path>)
    ensures Attempted(outcome, trace, existing) == AfterClone(cfg, cloned, listing, git)
  {
    existing := cloned;
    trace := [Prepared] + [Cloned];

    // Step 2: get files from the gist
    var gistFiles := GetGistFiles(listing);
    trace := trace + [Listed];
    if gistFiles == [] {
      return Completed(NoFiles), trace, existing;
    }

    // Step 3: build the file mapping
    var mapped := BuildFileMap(cfg, gistFiles);
    if mapped.Failure? {
      return Raised(mapped.error), trace, existing;
    }
    var fileMap := mapped.value;
    trace := trace + [Mapped];
    if fileMap.keys == [] {
      return Completed(NoMappings), trace, existing;
    }

    // Step 4: sync files
    var modified, skipped;
    modified, skipped, existing := SyncFiles(cfg, fileMap, existing);
    trace := trace + [Synced];
    if modified == [] {
      return Completed(NoneModified), trace, existing;
    }

    // Step 5: commit or create a pull request
    if cfg.createPr {
      trace := trace + [PullRequestAttempted];
      return Raised(NotImplemented), trace, existing;
    }
    if !git.preCommitOk {
      return Raised(GitFailed), trace, existing;
    }
    trace := trace + [IdentityConfigured(cfg.gitUserName, cfg.gitUserEmail), Staged(modified)];
    if !git.dirtyAfterStaging {
      return Completed(NoChanges), trace, existing;
    }
    if !git.commitOk {
      return Raised(CommitFailed), trace, existing;
    }
    trace := trace + [Committed];
    if !git.pushOk {
      return Raised(PushFailed), trace, existing;
    }
    trace := trace + [Pushed];
    outcome := Completed(Synchronised);
  }

  /** run: the try block, then the cleanup of the finally block, which runs
      on every exit and leaves no clone directory behind. The cleanup is the
      only step after the try block, and it happens exactly when the clone
      was made or the clone directory is gist-clone-temp itself; otherwise
      gist-clone-temp stays. */
  method Run(cfg: Config, existing0: set<Path>, clone: CloneResult, git: GitAnswers)
    returns (outcome: Outcome, trace: seq<RunStep>, existing: set<Path>)
    ensures var a := Expected(cfg, existing0, clone, git);
      var cleanup := Cloned in a.trace || cfg.gistId == "";
      && outcome == a.outcome
      && trace == a.trace + (if cleanup then [CleanedUp] else [])
      && existing == (if cleanup then RemoveTree(a.existing, CloneDir(cfg)) else a.existing)
    ensures !PathExists(existing, CloneDir(cfg))
    ensures CleanedUp in trace <==> Cloned in trace || cfg.gistId == ""
    ensures CleanedUp in trace ==> trace[|trace| - 1] == CleanedUp
    ensures CLONE_ROOT in existing <==> cfg.gistId != ""
  {
    outcome, trace, existing := Attempt(cfg, existing0, clone, git);
    CloneDirAfterAttempt(cfg, existing0, clone, git);
    CloneRootAfterAttempt(cfg, existing0, clone, git);
    assert cfg.gistId != "" ==> !Under(CLONE_ROOT, CloneDir(cfg));
    // finally: cleanup
    if PathExists(existing, CloneDir(cfg)) {
      existing := RemoveTree(existing, CloneDir(cfg));
      trace := trace + [CleanedUp];
    }
  }
}

=== FILE: types.dfy ===
/** Shared vocabulary of the gist-to-repository synchroniser: file names and
    paths, path joining, the run configuration and the errors a run raises. */
module Types {

  type Name = string
  type Path = string

  // Mapping strategies recognised by build_file_map.
  const EXPLICIT: string := "explicit"
  const SAME_NAMES: string := "same_names"
  const PREFIX: string := "prefix"
  const ALL_TO_DIRECTORY: string := "all_to_directory"

  // Merge strategies named by should_copy_file.
  const OVERWRITE: string := "overwrite"
  const SKIP_EXISTING: string := "skip_existing"
  const NEWER_ONLY: string := "newer_only"

  /** The version-control metadata entry that the file listing drops. */
  const GIT_ENTRY: Name := ".git"

  /** Parent directory of every gist clone. */
  const CLONE_ROOT: Path := "gist-clone-temp"

  datatype Option<T> = None | Some(value: T)

  /** The exceptions a run can raise. */
  datatype Error =
    | CloneFailed                             // clone_gist's ValueError
    | UnknownMappingStrategy(strategy: string) // build_file_map's ValueError
    | NotImplemented                          // create_pull_request
    | GitFailed                               // opening, configuring, staging or is_dirty
    | CommitFailed                            // index.commit
    | PushFailed                              // the remote lookup or push

  datatype Result<T> = Success(value: T) | Failure(error: Error)

  /** The options a syncer reads once from its environment and never changes. */
  datatype Config = Config(
    gistId: string,
    token: string,
    mappingStrategy: string,
    fileMappings: map<Name, Path>,
    targetPath: Path,
    filePrefix: string,
    mergeStrategy: string,
    createPr: bool,
    commitMessage: string,
    gitUserName: string,
    gitUserEmail: string,
    repoRoot: Path)

  /** The options of a run whose environment sets only the gist id and the
      token (and no workspace). */
  function DefaultConfig(gistId: string, token: string): Config {
    Config(gistId, token, SAME_NAMES, map[], "./", "", OVERWRITE, false,
           "Sync from Gist {gist_id}", "github-actions[bot]",
           "github-actions[bot]@users.noreply.github.com", ".")
  }

  predicate KnownMappingStrategy(s: string) {
    s == EXPLICIT || s == SAME_NAMES || s == PREFIX || s == ALL_TO_DIRECTORY
  }

  /** os.path.join for a relative second component: a separator is put
      between the two parts unless the first is empty or already ends in one. */
  function Join(dir: Path, name: Name): (p: Path)
    ensures dir <= p
    ensures |name| <= |p| && p[|p| - |name|..] == name
    ensures |p| - |dir| - |name| == (if dir == [] || dir[|dir| - 1] == '/' then 0 else 1)
    ensures |p| == |dir| + |name| + 1 ==> p[|dir|] == '/'
  {
    if dir == [] || dir[|dir| - 1] == '/' then dir + name else dir + "/" + name
  }

  /** `p` is `dir` itself or lies below it. */
  predicate Under(p: Path, dir: Path) {
    p == dir || dir + "/" <= p
  }

  /** os.path.exists over a filesystem given by the files in it: a path
      exists when it is a file or a directory holding something. */
  predicate PathExists(existing: set<Path>, path: Path)
    ensures path in existing ==> PathExists(existing, path)
    ensures PathExists(existing, path) ==> exists p :: p in existing && path <= p
    ensures existing == {} ==> !PathExists(existing, path)
  {
    assert Under(path, path);
    exists p {:trigger Under(p, path)} :: p in existing && Under(p, path)
  }

  /** Distinct names joined under one directory give distinct paths. */
  lemma JoinInjective(dir: Path, a: Name, b: Name)
    requires Join(dir, a) == Join(dir, b)
    ensures a == b
  {
    var p := Join(dir, a);
    assert |a| == |b|;
    assert a == p[|p| - |a|..] == b;
  }
}
